=== FILE: README.md ===
# Video and measurement backend — verified model

This project models the request-handling core of the backend in
`backend/main.py`: a small web service that streams training videos by
category and keeps CSV tables of user entries and of shaft and housing
measurements.

The model covers:

- **Video resolution** (`get_video_path`): a `(category, filename)` pair is
  looked up in the category registry and joined with POSIX `os.path.join`
  rules. The answer is 404 "Category not found" or 404 "File not found",
  checked in that order. The registry and the set of existing regular files
  are parameters.
- **Range decision** (`stream_video`): the `Range` header is stripped,
  lower-cased and split on `bytes=`. The second piece is split on `-`, and
  each half is read with Python's `int()`, an empty half standing for 0 or
  for the last byte. The header is served whole, served as one range (206),
  rejected as malformed (400) or rejected as unsatisfiable (416). The model
  follows the handler rather than RFC 7233: `bytes=-N` means bytes 0..N, not
  the last N bytes. So `bytes=-<size>` is a 416, and no header form asks for
  a suffix. A list of ranges is a 400, and a 416 carries no `Content-Range`.
- **Reply headers**: the status, `Content-Length`, `Content-Range`,
  `Accept-Ranges` and `Content-Type` for each decision.
- **Streaming** (`range_streamer`): an imperative loop over a `BinaryFile`
  object with `Seek` and `Read`. It reads at most `CHUNK_SIZE` (1 MiB) at a
  time until the range is exhausted or a read comes back empty. It is proved
  equal to a reference chunking of the requested window. The concatenated
  chunks are exactly the requested bytes, and every chunk but the last is
  full.
- **Records**: `check_permission` on a table's `crud` letters; the
  search-and-edit loop of `update_user_entry`; the required-field loops of
  `add_shaft_measurement` and `add_housing_measurement`.

Python built-ins the parser relies on are modelled on ASCII text in module
`Text`: `str.strip`, `str.lower`, `str.split(sep)`, `int(text)` and
`str(n)`. `int(text)` skips surrounding tabs, line breaks and spaces, then
reads an optional `+` and digit groups joined by single underscores, and
refuses more than 4300 digits (`sys.int_info.default_max_str_digits`),
leading zeros included, so an over-long bound is a 400. The two
built-ins disagree on white space: `strip()` also drops the information
separators 0x1C-0x1F, which `int()` does not skip. So a separator inside a
bound makes the header malformed.

Two properties of the source are worth a reader's attention:

- `MediaPaths.AbsoluteFilenameEscapes`: because `os.path.join` drops the
  directory when the second argument is absolute, `get_video_path` returns
  an existing absolute filename under any known category. Over HTTP the
  route `/video/{category}/{filename}` keeps `filename` to one path segment,
  so this case is a property of the function, not of a request.
- `RangeExamples.PrefixOfWholeSizeRefused`: `bytes=-1000` on a 1000-byte
  file is refused with 416.

Files: `outcomes.dfy` (Option, HTTP error, Result), `text.dfy`, `paths.dfy`,
`range_header.dfy`, `range_examples.dfy`, `streaming.dfy`,
`video_endpoint.dfy`, `records.dfy`.

## Model

| member | source | states |
|---|---|---|
| Text.StripLeading | backend/main.py:130 | `lstrip` over the white space of `strip()` or of `int()`: the result is a suffix of the input, everything dropped is white space, and the result does not start with white space |
| Text.StripTrailing | backend/main.py:130 | `rstrip` over the white space of `strip()` or of `int()`: the result is a prefix of the input, everything dropped is white space, and the result does not end with white space |
| Text.FormatNat | backend/main.py:139-141 | `str(n)` is a non-empty digit string, with a leading `0` exactly when `n` is 0 |
| Text.ParseFormatRoundTrip | backend/main.py:132-133 | `int(str(n)) == n` for every natural number written in at most 4300 digits |
| Text.FormatNatLonger | backend/main.py:132-133 | a larger number takes at least as many digits in `str()` |
| Text.ParseTooManyDigits | backend/main.py:132-135 | `int()` refuses a digit string longer than 4300 characters, leading zeros included |
| Text.AllDigitsCount | backend/main.py:132-133 | every character of a plain digit string counts towards `int()`'s 4300-digit limit |
| Text.ParseRejectsForeignChar | backend/main.py:132-135 | `int()` fails on any text that holds a character other than the white space it skips, a digit, `_` or `+`; this includes the separators 0x1C-0x1F |
| Text.NonBlankSurvivesTrim | backend/main.py:130-132 | a character that is not white space, for `strip()` or for `int()`, is still in the stripped text, shifted left by the leading white space removed |
| Text.SplitHasSecondPiece | backend/main.py:130 | `split(sep)` yields a second piece exactly when `sep` occurs in the text |
| Text.SplitCharCount | backend/main.py:131 | splitting on one character gives one piece more than the character's count |
| Text.StripMiddle | backend/main.py:130 | `strip()` (Text.Strip) keeps a contiguous middle of the text, drops only white space on either side, and leaves no white space at either end |
| Text.LowerChars | backend/main.py:130 | `lower()` (Text.Lower) keeps the length, turns each capital letter into its small letter and keeps every other character |
| Text.LowerNoUpper | backend/main.py:130 | `lower()` leaves text without capital letters unchanged |
| Text.Split | backend/main.py:130-131 | `split(sep)` yields at least one piece; its other properties are stated by Text.SplitJoin, Text.SplitPiecesFree, Text.SplitHasSecondPiece and Text.SplitCharCount |
| Text.SplitPiecesFree | backend/main.py:130-131 | no piece of `split(sep)` holds `sep`; for a separator that cannot overlap itself, such as `bytes=` and `-`, this with Text.SplitJoin fixes the pieces as the text between successive occurrences |
| Text.SplitFirstIsPrefix | backend/main.py:130 | the first piece of `split(sep)` is a prefix of the text |
| Text.SplitJoin | backend/main.py:130-131 | joining the pieces of `split(sep)` with `sep` gives the text back |
| Text.ParseDigits | backend/main.py:132-133 | `int()` (Text.ParseInt) reads any digit string of 1 to 4300 characters, leading zeros included, as the number its digits spell (Text.ParseTooManyDigits covers longer ones) |
| Text.StripLowerCommute | backend/main.py:130 | stripping and lower-casing a lower-cased header gives the same text as stripping and lower-casing the header itself |
| MediaPaths.JoinRelative | backend/main.py:81 | a relative name is joined below the directory: the directory, at most one `/`, then the name |
| MediaPaths.JoinAbsolute | backend/main.py:81 | an absolute name replaces the directory |
| MediaPaths.ResolveVideoPath | backend/main.py:76-86 | 404 "Category not found" for an unknown category; otherwise success exactly when the joined path is an existing file, else 404 "File not found"; success returns that path |
| MediaPaths.ResolvedUnderCategory | backend/main.py:76-86 | a resolved relative filename lies under its category's directory |
| MediaPaths.AbsoluteFilenameEscapes | backend/main.py:81-86 | `get_video_path` returns an existing absolute filename unchanged under any known category |
| RangeHeader.RangeTextPresent | backend/main.py:130 | the range text (RangeHeader.RangeText, the second piece of the split on `bytes=`) exists exactly when the stripped, lower-cased header holds `bytes=`, and it holds no further `bytes=` |
| RangeHeader.AnyDigitsBound | backend/main.py:132-133 | a half that is a run of 1 to 4300 digits (RangeHeader.Bound), leading zeros included, is the number its digits spell; RangeHeader.BoundOfText covers the empty half and RangeHeader.LongBoundRejected longer runs |
| RangeHeader.ParseRange | backend/main.py:129-134 | a parse succeeds only when the header holds `bytes=` and the range text holds exactly one `-` |
| RangeHeader.DecideRange | backend/main.py:126-137 | whole file exactly when the header is absent or empty; 400 exactly when the parse fails; 416 exactly when start > end or end >= size; a range is within the file and equals the parsed bounds; an empty file gets no range |
| RangeHeader.SpecDecided | backend/main.py:129-137 | a header `bytes=S-E`, each bound empty or decimal in at most 4300 digits, is decided with start 0 and end size-1 as defaults: 416 when start > end or end >= size, else that range |
| RangeHeader.LongBoundRejected | backend/main.py:129-135 | a header `bytes=A-B` of digit strings with a half longer than 4300 digits is a 400, because `int()` refuses that half |
| RangeHeader.SpecParsed | backend/main.py:129-133 | the parse of `bytes=S-E`, each bound empty or decimal in at most 4300 digits, returns the two bounds with their defaults |
| RangeHeader.PlainHeaderNormal | backend/main.py:130 | `bytes=` followed by text without capitals or trailing white space is left unchanged by strip and lower |
| RangeHeader.PlainRangeText | backend/main.py:130 | for such text without a `b`, the range text is that text |
| RangeHeader.DigitSpecText | backend/main.py:130 | the range text of `bytes=A-B` with digit strings is `A-B` |
| RangeHeader.DigitSpecHalves | backend/main.py:131 | `A-B` with digit strings splits into `A` and `B` |
| RangeHeader.MissingUnitRejected | backend/main.py:130-135 | a non-empty header without `bytes=` after normalisation is a 400 |
| RangeHeader.DashCountRejected | backend/main.py:131-135 | a range text without exactly one `-` is a 400; this includes lists of ranges |
| RangeHeader.BadHalfRejected | backend/main.py:131-135 | two halves, one of which `int()` cannot read, are a 400 |
| RangeHeader.NonNumericRejected | backend/main.py:132-135 | a half containing a letter, an information separator or another character `int()` cannot read is a 400 |
| RangeHeader.CaseInsensitive | backend/main.py:130 | lower-casing the header never changes the decision |
| RangeHeader.EmptyFileUnsatisfiable | backend/main.py:136-137 | on an empty file every well-formed range is a 416 |
| RangeHeader.AcceptedRangeRepeatable | backend/main.py:129-139 | asking again with `bytes=<start>-<end>` for an accepted range gets the same range, for a file whose size is written in at most 4300 digits |
| RangeExamples.RangeInsideFile | backend/main.py:126-137 | `bytes=100-199` on 1000 bytes is the range 100..199 |
| RangeExamples.RangePastEnd | backend/main.py:136-137 | `bytes=1000-1050` on 1000 bytes is a 416 |
| RangeExamples.PrefixOfWholeSizeRefused | backend/main.py:131-137 | `bytes=-1000` on 1000 bytes is a 416, because an empty start means 0 |
| RangeExamples.LastByte | backend/main.py:131-137 | `bytes=999-` on 1000 bytes is the single last byte |
| RangeExamples.DashAlone | backend/main.py:131-137 | `bytes=-` is a 206 over the whole file, or a 416 on an empty file |
| RangeExamples.ZeroPaddedStartRefused | backend/main.py:130-135 | `bytes=` followed by 4301 zeros and `-` on a 10-byte file is a 400: `int()` counts the leading zeros towards its 4300-digit limit |
| RangeExamples.SeparatorInBound | backend/main.py:130-135 | `bytes=\x1c0-9` on 10 bytes is a 400: `strip()` leaves the separator inside the header and `int()` rejects it |
| RangeExamples.NonNumericRange | backend/main.py:132-135 | `bytes=ten-twenty` is a 400 |
| RangeExamples.RangeListRefused | backend/main.py:131-135 | `bytes=0-1,5-9` is a 400 |
| RangeStreaming.BinaryFile.Open | backend/main.py:89 | a freshly opened file is at position 0 |
| RangeStreaming.BinaryFile.Seek | backend/main.py:90 | the position becomes the offset, possibly past the end |
| RangeStreaming.BinaryFile.Read | backend/main.py:94 | returns the bytes from the position up to `n` of them, clipped at the end of the file, and advances the position by the count returned |
| RangeStreaming.Window | backend/main.py:88-98 | the window is at most `end-start+1` bytes long, and is exactly `bytes[start..end]` when the range lies in the file |
| RangeStreaming.ChunkedFlatten | backend/main.py:92-97 | concatenating the chunks of a text gives the text back |
| RangeStreaming.ChunkedSizes | backend/main.py:93-94 | every chunk holds 1 to `n` bytes, and all but the last hold exactly `n` |
| RangeStreaming.ReadStep | backend/main.py:92-98 | one loop pass: the read is empty exactly when nothing of the window remains; otherwise it is the next reference chunk, and the rest of the window follows it |
| RangeStreaming.StreamStep | backend/main.py:92-98 | across one pass, the chunks so far plus the reference chunking of the rest of the window stay equal to the reference chunking of the whole window; an empty read means the chunks so far are complete |
| RangeStreaming.StreamDone | backend/main.py:91 | once the position is past the end, the chunks so far are the whole reference chunking |
| RangeStreaming.RangeStreamer | backend/main.py:88-98 | the yielded chunks are the reference chunking of the window; they concatenate to the window (to exactly `bytes[start..end]` when the range lies in the file), never exceed `end-start+1` bytes in total, and all but the last are full 1 MiB chunks |
| VideoEndpoint.RangeReply | backend/main.py:136-158 | 400 and 416 for the two rejections; a range is a 206 with `Content-Range: bytes s-e/size`; no header is a 200 without `Content-Range` over 0..size-1; each served reply has `Content-Length` equal to the byte count, `Accept-Ranges: bytes` and `Content-Type: video/mp4`; VideoEndpoint.ReplyHeaderNames fixes the set of header names |
| VideoEndpoint.ReplyHeaderNames | backend/main.py:138-154 | a served reply has no two headers with the same name; the names are exactly `Content-Range`, `Accept-Ranges`, `Content-Length` and `Content-Type` for a 206, and `Content-Length`, `Content-Type` and `Accept-Ranges` for a 200 |
| VideoEndpoint.PartialHeaders | backend/main.py:138-143 | the headers of a 206 give the range as `bytes s-e/size`, the byte count `e - s + 1`, `bytes` and `video/mp4` |
| VideoEndpoint.FullHeaders | backend/main.py:150-154 | the headers of a 200 give the file size as the length, `video/mp4` and `bytes`, and no `Content-Range` |
| VideoEndpoint.ServeDecision | backend/main.py:136-158 | a rejection is answered with its error; otherwise the reply's status and headers go out with a body that concatenates to exactly the chosen bytes, whose `Content-Length` is its true length, in chunks of 1 byte to 1 MiB |
| VideoEndpoint.StreamVideo | backend/main.py:122-158 | resolution errors come first, whatever the header says; rejections follow; a served body concatenates to exactly the chosen bytes of the file, its `Content-Length` is its true length, and its chunks are 1 byte to 1 MiB long |
| VideoEndpoint.FullBodyIsFile | backend/main.py:149-158 | without a `Range` header the reply is a 200 over the whole file |
| VideoEndpoint.RangeInsideFileReply | backend/main.py:138-148 | `bytes=100-199` on 1000 bytes is a 206 with `Content-Length: 100` and `Content-Range: bytes 100-199/1000` |
| Records.CheckPermission | backend/main.py:162-171 | an unknown table fails the lookup; an action is refused with 403 exactly when it is create, read, update or delete and its letter is missing from the table's permission string |
| Records.UserEntryGrantsAll | backend/main.py:19-25 | the `user_entry` table, with permission `crud`, refuses no action |
| Records.ApplyEdits | backend/main.py:279-281 | each listed field other than `roll_number` that the entry holds is copied into the row; every other column, `roll_number` included, is unchanged |
| Records.EditStep | backend/main.py:279-281 | allowing one more field changes at most that field |
| Records.EditRow | backend/main.py:279-281 | the inner loop computes exactly the edited row |
| Records.UpdateUserEntry | backend/main.py:266-289 | 400 exactly when the entry has no `roll_number`; the first row with a matching key is edited and nothing else changes; 404 exactly when every row has a key and none matches; the lookup fails on a missing key column exactly when a row without it comes before any match |
| Records.StopUnique | backend/main.py:277-278 | the loop cannot both reach a row without a `roll_number` column and find a match: a match comes first or the missing column does |
| Records.NothingStops | backend/main.py:277-287 | when every row has a `roll_number` other than the requested one, the loop neither matches nor raises, so the answer is the 404 |
| Records.FirstMatchUnique | backend/main.py:277-283 | the row the loop stops at is unique |
| Records.FirstMissingField | backend/main.py:370-372 | no missing field exactly when the entry holds every required field; otherwise the first required field, in order, that the entry lacks |
| Records.AddMeasurement | backend/main.py:370-374 | the entry is appended exactly when it holds every required field; otherwise a 400 names the first missing field |
| Records.AddShaftMeasurement | backend/main.py:364-375 | the entry is appended exactly when it holds all four shaft fields; otherwise a 400 "Missing field: " names the first of them, in order, that the entry lacks |
| Records.AddHousingMeasurement | backend/main.py:378-389 | the entry is appended exactly when it holds all five housing fields; otherwise a 400 "Missing field: " names the first of them, in order, that the entry lacks |

## Left out

- The web framework is not modelled: FastAPI routing, `StreamingResponse`, the asynchronous generator protocol, CORS and logging. Replies are the values they would carry.
- Real I/O is not modelled. The file system is a map from path to bytes, fixed for the whole request. A file that changes between `getsize` and the reads is not captured.
- `list_videos` and the debug route are not part of this model. They list directories and do not touch the range logic.
- Reading and writing the CSV files (`csv_helper.read_csv`, `write_csv`, `append_csv`) is not part of this model. Tables are sequences of rows passed in and returned.
- `add_user_entry` and `should_calibrate` are not modelled, because they depend on the clock.
- The GET, DELETE and clear endpoints and `update_shaft_measurement` are not modelled. They only call the CSV helper.
- `start_backend_flutter_dev.py` is not part of this model. It only launches processes.
- Text.ParseInt: models `int()` only on ASCII text. Unicode digits and white space are not handled. A leading `-` is not modelled either, since the parser only hands it pieces already split on `-`.
- Text.Strip: treats only ASCII white space as white space. Python's `strip()` and `int()` also drop Unicode white space such as `\x85` and `\xa0`, so a header like `bytes=0-1\xa0` is a 206 in the handler but a 400 in the model.
- Text.Lower: lower-cases ASCII letters only, not the rest of Unicode.
- Text.FormatNat: does not model the 4300-digit limit of `str()` on integers. The numbers it renders in the handler are byte offsets and sizes of a real file, far below that.
- RangeHeader.AcceptedRangeRepeatable: holds only for a file whose size is written in at most 4300 digits. Past that, an accepted open-ended range re-asked with its end written out is refused by `int()`.
- MediaPaths.AbsoluteFilenameEscapes: the route `/video/{category}/{filename}` matches `filename` against a single path segment, with no `/`. An encoded `%2F` is decoded before routing and then fails to match. So no request reaches this case; the lemma is about `get_video_path` alone.
- MediaPaths.JoinPath: follows POSIX joining only. Windows drive letters and back-slashes are not modelled, and neither are path normalisation or symbolic links.
- Records.UpdateUserEntry: treats every JSON value as text. A non-string `roll_number` in the request, which would never equal a CSV cell, is not modelled.
- The case-insensitive lookup of the `Range` header name is done by the framework. The model receives the header's value, or none.

=== FILE: outcomes.dfy ===
/**
  Small value types shared by the rest of the model: an optional value, a
  result that carries either a value or an HTTP error, and the HTTP error
  itself (the status code and detail text of a FastAPI `HTTPException`).
 */
module Outcomes {

  datatype Option<+T> = None | Some(value: T) {
    function GetOr(default: T): T {
      match this
      case Some(v) => v
      case None => default
    }
  }

  /** An `HTTPException(status_code, detail)` raised by a handler. */
  datatype HttpError = HttpError(status: nat, detail: string)

  datatype Result<+T> = Ok(value: T) | Err(error: HttpError)
}

=== FILE: paths.dfy ===
/**
  Resolving a video request's (category, filename) pair to a file on storage
  (`get_video_path`). The category registry `VIDEO_DIRS` is a parameter, and
  the file system is the set of paths that name existing regular files.
 */
module MediaPaths {
  import opened Outcomes

  /** `os.path.join(directory, name)` with POSIX rules: an absolute `name`
      replaces the directory; otherwise a `/` is put between the two unless
      the directory is empty or already ends in one. */
  function JoinPath(directory: string, name: string): string {
    if IsAbsolute(name) then name
    else if directory == "" || directory[|directory| - 1] == '/' then directory + name
    else directory + "/" + name
  }

  predicate IsAbsolute(name: string) {
    |name| > 0 && name[0] == '/'
  }

  /** A relative name is joined below the directory: the result is the
      directory, at most one separator, and the name. */
  lemma JoinRelative(directory: string, name: string)
    requires !IsAbsolute(name)
    ensures var p := JoinPath(directory, name);
      && |directory| <= |p| && p[..|directory|] == directory
      && |name| <= |p| && p[|p| - |name|..] == name
      && |p| - |directory| - |name| <= 1
      && (|p| - |directory| - |name| == 1 ==> p[|directory|] == '/')
  {
  }

  /** An absolute name ignores the directory entirely. */
  lemma JoinAbsolute(directory: string, name: string)
    requires IsAbsolute(name)
    ensures JoinPath(directory, name) == name
  {
  }

  /** `get_video_path`: the joined path when the category is configured and
      the path names an existing file; otherwise a 404 naming which check
      failed. The category is checked first. */
  function ResolveVideoPath(videoDirs: map<string, string>, files: set<string>,
                            category: string, filename: string): (r: Result<string>)
    ensures category !in videoDirs ==> r == Err(HttpError(404, "Category not found"))
    ensures category in videoDirs ==>
      (r.Ok? <==> JoinPath(videoDirs[category], filename) in files)
    ensures category in videoDirs && r.Err? ==> r == Err(HttpError(404, "File not found"))
    ensures r.Ok? ==> r.value in files && r.value == JoinPath(videoDirs[category], filename)
  {
    if category !in videoDirs then Err(HttpError(404, "Category not found"))
    else
      var path := JoinPath(videoDirs[category], filename);
      if path !in files then Err(HttpError(404, "File not found"))
      else Ok(path)
  }

  /** A served file sits under its category's directory whenever the
      requested filename is relative. */
  lemma ResolvedUnderCategory(videoDirs: map<string, string>, files: set<string>,
                              category: string, filename: string)
    requires !IsAbsolute(filename)
    requires ResolveVideoPath(videoDirs, files, category, filename).Ok?
    ensures var p := ResolveVideoPath(videoDirs, files, category, filename).value;
      category in videoDirs && p[..|videoDirs[category]|] == videoDirs[category]
  {
    JoinRelative(videoDirs[category], filename);
  }

  /** No containment check: for an absolute filename that exists,
      `get_video_path` returns it, outside every category directory, whatever
      the category. */
  lemma AbsoluteFilenameEscapes(videoDirs: map<string, string>, files: set<string>,
                                category: string, filename: string)
    requires category in videoDirs && IsAbsolute(filename) && filename in files
    ensures ResolveVideoPath(videoDirs, files, category, filename) == Ok(filename)
  {
    JoinAbsolute(videoDirs[category], filename);
  }
}

=== FILE: range_examples.dfy ===
/**
  What the range decision makes of particular headers for a 1000-byte file.
 */
module RangeExamples {
  import opened Outcomes
  import opened Text
  import opened RangeHeader

  lemma RangeInsideFile()
    ensures DecideRange(Some("bytes=100-199"), 1000) == PartialContent(100, 199)
  {
    assert FormatNat(10) == "10";
    assert FormatNat(100) == "100";
    assert FormatNat(19) == "19";
    assert FormatNat(199) == "199";
    assert RangeSpec(Some(100), Some(199)) == "bytes=100-199";
    SpecDecided(Some(100), Some(199), 1000);
  }

  lemma RangePastEnd()
    ensures DecideRange(Some("bytes=1000-1050"), 1000) == UnsatisfiableRange
  {
    assert FormatNat(10) == "10";
    assert FormatNat(100) == "100";
    assert FormatNat(1000) == "1000";
    assert FormatNat(105) == "105";
    assert FormatNat(1050) == "1050";
    assert RangeSpec(Some(1000), Some(1050)) == "bytes=1000-1050";
    SpecDecided(Some(1000), Some(1050), 1000);
  }

  /** `bytes=-1000` names the range 0..1000, one byte too many. */
  lemma PrefixOfWholeSizeRefused()
    ensures DecideRange(Some("bytes=-1000"), 1000) == UnsatisfiableRange
  {
    assert FormatNat(10) == "10";
    assert FormatNat(100) == "100";
    assert FormatNat(1000) == "1000";
    assert RangeSpec(None, Some(1000)) == "bytes=-1000";
    SpecDecided(None, Some(1000), 1000);
  }

  /** The open-ended `bytes=999-` is the last byte alone. */
  lemma LastByte()
    ensures DecideRange(Some("bytes=999-"), 1000) == PartialContent(999, 999)
  {
    assert FormatNat(99) == "99";
    assert FormatNat(999) == "999";
    assert RangeSpec(Some(999), None) == "bytes=999-";
    SpecDecided(Some(999), None, 1000);
  }

  /** `bytes=-` is the whole file as a 206 when the file has bytes, and a 416
      when it is empty. */
  lemma DashAlone(size: nat)
    ensures DecideRange(Some("bytes=-"), size) ==
      if size > 0 then PartialContent(0, size - 1) else UnsatisfiableRange
  {
    assert RangeSpec(None, None) == "bytes=-";
    SpecDecided(None, None, size);
  }

  lemma TenTwentyText(header: string)
    requires header == "bytes=ten-twenty"
    ensures RangeText(header) == Some("ten-twenty")
  {
    var t := "ten-twenty";
    assert "bytes=" + t == header;
    PlainRangeText(t);
  }

  lemma TenTwentyHalves()
    ensures Split("ten-twenty", "-") == ["ten", "twenty"]
  {
    var t := "ten-twenty";
    assert t == "ten" + "-" + "twenty";
    SplitAroundChar("ten", '-', "twenty");
    FirstCharAbsent("twenty", "-");
    SplitAbsent("twenty", "-");
  }

  /** Bounds that are not numbers are a 400. */
  lemma NonNumericRange(header: string, size: nat)
    requires header == "bytes=ten-twenty"
    ensures DecideRange(Some(header), size) == MalformedRange
  {
    TenTwentyText(header);
    TenTwentyHalves();
    NonNumericRejected(header, size, 0, 0);
  }

  lemma RangeListText(header: string)
    requires header == "bytes=0-1,5-9"
    ensures RangeText(header) == Some("0-1,5-9")
  {
    var t := "0-1,5-9";
    assert "bytes=" + t == header;
    PlainRangeText(t);
  }

  lemma RangeListHalves()
    ensures |Split("0-1,5-9", "-")| == 3
  {
    var t := "0-1,5-9";
    assert t == "0" + "-" + "1,5-9";
    SplitAroundChar("0", '-', "1,5-9");
    assert "1,5-9" == "1,5" + "-" + "9";
    SplitAroundChar("1,5", '-', "9");
    FirstCharAbsent("9", "-");
    SplitAbsent("9", "-");
  }

  /** A list of two ranges is a 400. */
  lemma RangeListRefused(header: string, size: nat)
    requires header == "bytes=0-1,5-9"
    ensures DecideRange(Some(header), size) == MalformedRange
  {
    RangeListText(header);
    RangeListHalves();
    SplitCharCount("0-1,5-9", '-');
    DashCountRejected(header, size);
  }

  lemma SeparatorBoundText(header: string)
    requires header == "bytes=\U{1C}0-9"
    ensures RangeText(header) == Some("\U{1C}0-9")
  {
    var t := "\U{1C}0-9";
    assert "bytes=" + t == header;
    PlainRangeText(t);
  }

  lemma SeparatorBoundHalves()
    ensures Split("\U{1C}0-9", "-") == ["\U{1C}0", "9"]
  {
    var t := "\U{1C}0-9";
    assert t == "\U{1C}0" + "-" + "9";
    SplitAroundChar("\U{1C}0", '-', "9");
    FirstCharAbsent("9", "-");
    SplitAbsent("9", "-");
  }

  /** A file separator (0x1C) inside the header survives `strip()`, and
      `int()` does not skip it: a 400. */
  lemma SeparatorInBound(header: string)
    requires header == "bytes=\U{1C}0-9"
    ensures DecideRange(Some(header), 10) == MalformedRange
  {
    SeparatorBoundText(header);
    SeparatorBoundHalves();
    NonNumericRejected(header, 10, 0, 0);
  }

  /** A start of 4301 zeros is a 400: `int()` reads no more than
      `MAX_STR_DIGITS` digits, leading zeros included. */
  lemma ZeroPaddedStartRefused()
    ensures var zeros := seq(MAX_STR_DIGITS + 1, _ => '0');
      DecideRange(Some("bytes=" + (zeros + "-" + "")), 10) == MalformedRange
  {
    var zeros := seq(MAX_STR_DIGITS + 1, _ => '0');
    LongBoundRejected(zeros, "", 10);
  }
}

=== FILE: range_header.dfy ===
/**
  The decision `stream_video` takes on the request's `Range` header: serve
  the whole file, serve one byte range, reject the header as malformed (400)
  or as not satisfiable for the file's size (416).

  The parser follows the handler, not RFC 7233: the unit prefix `bytes=` may
  stand anywhere in the header, `bytes=-N` means the range 0..N (not the last
  N bytes), `bytes=-` is a 206 over the whole file (not the 200 of a missing
  header) and a 416 on an empty file, and a list of ranges is rejected
  because it does not split into exactly two parts on `-`.
 */
module RangeHeader {
  import opened Outcomes
  import opened Text

  datatype RangeDecision =
    | FullContent
    | PartialContent(start: nat, end: nat)
    | MalformedRange
    | UnsatisfiableRange

  /** The bound written in one half of `start-end`: absent when the half is
      empty, otherwise whatever `int()` makes of it. */
  function Bound(half: string): Option<Option<nat>> {
    if half == "" then Some(None)
    else match ParseInt(half)
      case None => None
      case Some(n) => Some(Some(n))
  }

  /** The text between the first `bytes=` and the next one (the second piece
      of the split); `None` when the header holds no `bytes=`. */
  function RangeText(header: string): Option<string> {
    var pieces := Split(Lower(Strip(header)), "bytes=");
    if |pieces| < 2 then None else Some(pieces[1])
  }

  /** A `Range` header yields a range text exactly when its stripped,
      lower-cased form holds `bytes=`, and that text holds no further
      `bytes=`. */
  lemma RangeTextPresent(header: string)
    ensures RangeText(header).Some? <==> Occurs(Lower(Strip(header)), "bytes=")
    ensures RangeText(header).Some? ==> !Occurs(RangeText(header).value, "bytes=")
  {
    SplitHasSecondPiece(Lower(Strip(header)), "bytes=");
    SplitPiecesFree(Lower(Strip(header)), "bytes=");
  }

  /** A non-empty run of at most `MAX_STR_DIGITS` digits, leading zeros
      included, is the bound its digits spell. */
  lemma AnyDigitsBound(a: string)
    requires 0 < |a| <= MAX_STR_DIGITS && AllDigits(a)
    ensures Bound(a) == Some(Some(DigitsValue(a)))
  {
    ParseDigits(a);
  }

  /** The parse in `stream_video`: the two bounds after defaulting, or `None` when the
      handler's parse raises (and it answers 400). An empty start means 0, an
      empty end means `size - 1` (which is -1 for an empty file). */
  function ParseRange(header: string, size: nat): (r: Option<(nat, int)>)
    ensures r.Some? ==> RangeText(header).Some?
    ensures r.Some? ==> multiset(RangeText(header).value)['-'] == 1
  {
    match RangeText(header)
    case None => None
    case Some(text) =>
      var halves := Split(text, "-");
      SplitCharCount(text, '-');
      if |halves| != 2 then None
      else
        var start, end := Bound(halves[0]), Bound(halves[1]);
        if start.None? || end.None? then None
        else Some((start.value.GetOr(0), if end.value.Some? then end.value.value else size - 1))
  }

  /** The whole decision `stream_video` takes on the `Range` header, for an optional header and the
      file's size. */
  function DecideRange(header: Option<string>, size: nat): (r: RangeDecision)
    ensures r.FullContent? <==> header.None? || header == Some("")
    ensures r.PartialContent? ==> r.start <= r.end < size
    ensures r.MalformedRange? <==> header.Some? && header.value != "" && ParseRange(header.value, size).None?
    ensures header.Some? && ParseRange(header.value, size).Some? ==>
      var (s, e) := ParseRange(header.value, size).value;
      (r.UnsatisfiableRange? <==> s > e || e >= size) &&
      (r.PartialContent? ==> r.start == s && r.end == e)
    ensures size == 0 ==> !r.PartialContent?
  {
    if header.None? || header.value == "" then FullContent
    else match ParseRange(header.value, size)
      case None => MalformedRange
      case Some((s, e)) =>
        if s > e || e >= size then UnsatisfiableRange else PartialContent(s, e)
  }

  // ---------------------------------------------------------------------
  // What headers of the documented shape are answered with

  /** The text of an optional bound: the decimal digits, or nothing. */
  function BoundText(b: Option<nat>): string {
    match b
    case None => ""
    case Some(n) => FormatNat(n)
  }

  /** `bytes=<start>-<end>` with either bound optional. */
  function RangeSpec(start: Option<nat>, end: Option<nat>): string {
    "bytes=" + (BoundText(start) + "-" + BoundText(end))
  }

  lemma BoundOfText(b: Option<nat>)
    requires |BoundText(b)| <= MAX_STR_DIGITS
    ensures Bound(BoundText(b)) == Some(b)
    ensures AllDigits(BoundText(b))
  {
    if b.Some? {
      ParseFormatRoundTrip(b.value);
    }
  }

  /** `bytes=` followed by a text with no upper-case letter and no
      trailing space is already stripped and lower-case. */
  lemma PlainHeaderNormal(body: string)
    requires |body| > 0 && !IsSpace(body[|body| - 1])
    requires forall i :: 0 <= i < |body| ==> !('A' <= body[i] <= 'Z')
    ensures Lower(Strip("bytes=" + body)) == "bytes=" + body
  {
    var h := "bytes=" + body;
    assert StripLeading(h, StrBlanks) == h by { assert h[0] == 'b'; }
    assert StripTrailing(h, StrBlanks) == h by { assert h[|h| - 1] == body[|body| - 1]; }
    forall i | 0 <= i < |h| ensures !('A' <= h[i] <= 'Z') {
      if i >= 6 { assert h[i] == body[i - 6]; }
    }
    LowerNoUpper(h);
  }

  /** ... and, when the text has no `b` either, it is the range text. */
  lemma PlainRangeText(body: string)
    requires |body| > 0 && !IsSpace(body[|body| - 1])
    requires forall i :: 0 <= i < |body| ==> body[i] != 'b' && !('A' <= body[i] <= 'Z')
    ensures RangeText("bytes=" + body) == Some(body)
  {
    var h := "bytes=" + body;
    PlainHeaderNormal(body);
    assert Lower(Strip(h)) == h;
    assert h[..6] == "bytes=" && h[6..] == body;
    FirstCharAbsent(body, "bytes=");
    SplitAbsent(body, "bytes=");
    assert Split(h, "bytes=") == [""] + Split(h[6..], "bytes=");
  }

  /** `bytes=A-B` with digit strings `A` and `B` has range text `A-B`. */
  lemma DigitSpecText(a: string, b: string)
    requires AllDigits(a) && AllDigits(b)
    ensures RangeText("bytes=" + (a + "-" + b)) == Some(a + "-" + b)
  {
    var body := a + "-" + b;
    forall i | 0 <= i < |body| ensures IsDigit(body[i]) || body[i] == '-' {
      if i < |a| { assert body[i] == a[i]; } else if i > |a| { assert body[i] == b[i - |a| - 1]; }
    }
    PlainRangeText(body);
  }

  /** `A-B` with digit strings `A` and `B` splits into `A` and `B`. */
  lemma DigitSpecHalves(a: string, b: string)
    requires AllDigits(a) && AllDigits(b)
    ensures Split(a + "-" + b, "-") == [a, b]
  {
    assert forall i :: 0 <= i < |a| ==> a[i] != '-';
    assert '-' !in a;
    SplitAroundChar(a, '-', b);
    FirstCharAbsent(b, "-");
    SplitAbsent(b, "-");
  }

  /** A header `bytes=S-E` is served as `[S, E]`; an empty `S` stands for 0
      and an empty `E` for the last byte; 416 exactly when the defaulted start
      exceeds the end or the end is past the last byte. Each bound is written
      in at most `MAX_STR_DIGITS` digits; `LongBoundRejected` covers longer
      ones. */
  lemma SpecDecided(start: Option<nat>, end: Option<nat>, size: nat)
    requires |BoundText(start)| <= MAX_STR_DIGITS && |BoundText(end)| <= MAX_STR_DIGITS
    ensures var s := start.GetOr(0);
            var e := if end.Some? then end.value else size - 1;
      DecideRange(Some(RangeSpec(start, end)), size) ==
        if s > e || e >= size then UnsatisfiableRange else PartialContent(s, e)
  {
    SpecParsed(start, end, size);
  }

  lemma SpecParsed(start: Option<nat>, end: Option<nat>, size: nat)
    requires |BoundText(start)| <= MAX_STR_DIGITS && |BoundText(end)| <= MAX_STR_DIGITS
    ensures ParseRange(RangeSpec(start, end), size) ==
      Some((start.GetOr(0), if end.Some? then end.value else size - 1))
  {
    var a, b := BoundText(start), BoundText(end);
    BoundOfText(start);
    BoundOfText(end);
    DigitSpecText(a, b);
    DigitSpecHalves(a, b);
    assert RangeText(RangeSpec(start, end)) == Some(a + "-" + b);
  }

  /** A header `bytes=A-B` whose start or end runs to more than
      `MAX_STR_DIGITS` digits is rejected: `int()` refuses it. */
  lemma LongBoundRejected(a: string, b: string, size: nat)
    requires AllDigits(a) && AllDigits(b)
    requires |a| > MAX_STR_DIGITS || |b| > MAX_STR_DIGITS
    ensures DecideRange(Some("bytes=" + (a + "-" + b)), size) == MalformedRange
  {
    var header := "bytes=" + (a + "-" + b);
    DigitSpecText(a, b);
    DigitSpecHalves(a, b);
    if |a| > MAX_STR_DIGITS {
      ParseTooManyDigits(a);
      assert Bound(a) == None;
    } else {
      ParseTooManyDigits(b);
      assert Bound(b) == None;
    }
    BadHalfRejected(header, size);
  }

  /** A header naming the unit nowhere is rejected. */
  lemma MissingUnitRejected(header: string, size: nat)
    requires header != "" && !Occurs(Lower(Strip(header)), "bytes=")
    ensures DecideRange(Some(header), size) == MalformedRange
  {
    SplitHasSecondPiece(Lower(Strip(header)), "bytes=");
  }

  /** A range text without exactly one `-` is rejected: this covers lists of
      ranges such as `0-1,5-9`. */
  lemma DashCountRejected(header: string, size: nat)
    requires RangeText(header).Some? && multiset(RangeText(header).value)['-'] != 1
    ensures DecideRange(Some(header), size) == MalformedRange
  {
    var text := RangeText(header).value;
    SplitCharCount(text, '-');
    assert |Split(text, "-")| != 2;
    assert ParseRange(header, size) == None;
  }

  /** A half that `int()` cannot read is rejected. */
  lemma NonNumericRejected(header: string, size: nat, half: nat, k: nat)
    requires RangeText(header).Some? && |Split(RangeText(header).value, "-")| == 2
    requires half < 2 && k < |Split(RangeText(header).value, "-")[half]|
    requires var c := Split(RangeText(header).value, "-")[half][k];
      !IsIntSpace(c) && !IsDigit(c) && c != '_' && c != '+'
    ensures DecideRange(Some(header), size) == MalformedRange
  {
    var halves := Split(RangeText(header).value, "-");
    ParseRejectsForeignChar(halves[half], k);
    if half == 0 {
      assert Bound(halves[0]) == None;
    } else {
      assert Bound(halves[1]) == None;
    }
    BadHalfRejected(header, size);
  }

  /** Two halves, one of which is no bound, make the header malformed. */
  lemma BadHalfRejected(header: string, size: nat)
    requires RangeText(header).Some? && |Split(RangeText(header).value, "-")| == 2
    requires var halves := Split(RangeText(header).value, "-");
      Bound(halves[0]).None? || Bound(halves[1]).None?
    ensures DecideRange(Some(header), size) == MalformedRange
  {
    assert ParseRange(header, size) == None;
  }

  /** The header is read case-insensitively. */
  lemma CaseInsensitive(header: string, size: nat)
    ensures DecideRange(Some(Lower(header)), size) == DecideRange(Some(header), size)
  {
    StripLowerCommute(header);
  }

  /** An empty file satisfies no range at all. */
  lemma EmptyFileUnsatisfiable(header: string)
    requires header != "" && ParseRange(header, 0).Some?
    ensures DecideRange(Some(header), 0) == UnsatisfiableRange
  {
  }

  /** Asking again, with `bytes=<start>-<end>`, for a range that was
      accepted gets the same range, for any file whose size `int()` could
      read back. */
  lemma AcceptedRangeRepeatable(header: string, size: nat)
    requires DecideRange(Some(header), size).PartialContent?
    requires |FormatNat(size)| <= MAX_STR_DIGITS
    ensures var d := DecideRange(Some(header), size);
      DecideRange(Some(RangeSpec(Some(d.start), Some(d.end))), size) == d
  {
    var d := DecideRange(Some(header), size);
    FormatNatLonger(d.start, size);
    FormatNatLonger(d.end, size);
    SpecDecided(Some(d.start), Some(d.end), size);
  }
}

=== FILE: records.dfy ===
/**
  The record-table logic beside the video server: the permission check on a
  table's `crud` letters, the update of a user entry by `roll_number`, and the
  required-field checks of the measurement handlers. A table is the list of
  rows the CSV helper reads, each row a map from column name to text; reading
  and writing the CSV files is not part of this model.
 */
module Records {
  import opened Outcomes

  type Row = map<string, string>

  /** `CSV_FILES[...]["permission"]`, per table key. */
  const TABLE_PERMISSIONS: map<string, string> := map["user_entry" := "crud"]

  const USER_ENTRY_FIELDS: seq<string> := ["roll_number", "name", "date", "time", "last_login"]
  const SHAFT_MEASUREMENT_FIELDS: seq<string> := ["product_id", "roll_number", "shaft_height", "shaft_radius"]
  const HOUSING_MEASUREMENT_FIELDS: seq<string> :=
    ["product_id", "roll_number", "housing_height", "housing_radius", "housing_depth"]

  /** The column user entries are looked up by. */
  const KEY_FIELD: string := "roll_number"

  // ---------------------------------------------------------------------
  // check_permission

  datatype Access = Granted | Denied(error: HttpError) | UnknownTable

  /** The letter of the permission string each action needs. */
  function ActionLetter(action: string): Option<char> {
    if action == "create" then Some('c')
    else if action == "read" then Some('r')
    else if action == "update" then Some('u')
    else if action == "delete" then Some('d')
    else None
  }

  /** `check_permission(file_key, action)`: a 403 when the action is one of
      the four and its letter is missing from the table's permission string;
      an unknown table key fails the lookup (a `KeyError` in the source). */
  function CheckPermission(permissions: map<string, string>, fileKey: string, action: string): (r: Access)
    ensures r.UnknownTable? <==> fileKey !in permissions
    ensures r.Denied? <==>
      fileKey in permissions && ActionLetter(action).Some? && ActionLetter(action).value !in permissions[fileKey]
    ensures r.Denied? ==> r.error.status == 403
  {
    if fileKey !in permissions then UnknownTable
    else
      var perms := permissions[fileKey];
      if action == "create" && 'c' !in perms then Denied(HttpError(403, "Create not allowed"))
      else if action == "read" && 'r' !in perms then Denied(HttpError(403, "Read not allowed"))
      else if action == "update" && 'u' !in perms then Denied(HttpError(403, "Update not allowed"))
      else if action == "delete" && 'd' !in perms then Denied(HttpError(403, "Delete not allowed"))
      else Granted
  }

  /** The user-entry table grants every action. */
  lemma UserEntryGrantsAll(action: string)
    ensures CheckPermission(TABLE_PERMISSIONS, "user_entry", action) == Granted
  {
    assert 'c' in "crud" && 'r' in "crud" && 'u' in "crud" && 'd' in "crud" by {
      var p := "crud";
      assert p[0] == 'c' && p[1] == 'r' && p[2] == 'u' && p[3] == 'd';
    }
  }

  // ---------------------------------------------------------------------
  // update_user_entry

  /** The row after an update that may change the listed `fields` other than
      the key: each such field the entry holds is copied from it, and nothing
      else changes. */
  function ApplyEdits(fields: seq<string>, row: Row, entry: Row): (r: Row)
    ensures forall f :: f in fields && f != KEY_FIELD && f in entry ==> f in r && r[f] == entry[f]
    ensures forall f :: !(f in fields && f != KEY_FIELD && f in entry) ==>
      (f in r <==> f in row) && (f in row ==> r[f] == row[f])
    ensures KEY_FIELD in row ==> KEY_FIELD in r && r[KEY_FIELD] == row[KEY_FIELD]
  {
    row + map f | f in entry.Keys && f in fields && f != KEY_FIELD :: entry[f]
  }

  /** Every row before `m` has a key, and none of them is `key`. */
  predicate NoMatchBefore(rows: seq<Row>, key: string, m: int)
    requires m <= |rows|
  {
    forall j :: 0 <= j < m ==> KEY_FIELD in rows[j] && rows[j][KEY_FIELD] != key
  }

  /** Row `i` is the first row whose key is `key`, and every row before it
      has a key. */
  predicate FirstMatch(rows: seq<Row>, key: string, i: int) {
    && 0 <= i < |rows|
    && KEY_FIELD in rows[i] && rows[i][KEY_FIELD] == key
    && NoMatchBefore(rows, key, i)
  }

  /** Row `m` lacks the key column and comes before any row whose key is
      `key`. */
  predicate MissingColumnAt(rows: seq<Row>, key: string, m: int) {
    && 0 <= m < |rows|
    && KEY_FIELD !in rows[m]
    && NoMatchBefore(rows, key, m)
  }

  datatype UpdateOutcome =
    | Updated(rows: seq<Row>)
    | Rejected(error: HttpError)
    /** A row without a `roll_number` column reached before any match: the
        lookup `row["roll_number"]` raises `KeyError`. */
    | MissingKeyColumn(index: nat)

  /** Allowing one more field adds at most that field's copy. */
  lemma EditStep(fields: seq<string>, field: string, row: Row, entry: Row)
    ensures ApplyEdits(fields + [field], row, entry) ==
      if field in entry && field != KEY_FIELD then ApplyEdits(fields, row, entry)[field := entry[field]]
      else ApplyEdits(fields, row, entry)
  {
    var before, after := ApplyEdits(fields, row, entry), ApplyEdits(fields + [field], row, entry);
    var expected := if field in entry && field != KEY_FIELD then before[field := entry[field]] else before;
    forall f ensures (f in after <==> f in expected) && (f in after ==> after[f] == expected[f]) {
      assert f in fields + [field] <==> f in fields || f == field;
    }
    assert after.Keys == expected.Keys;
  }

  /** The inner loop of `update_user_entry`: for each of `fields` in turn,
      copy it from the entry into the row unless it is the key or the entry
      lacks it. */
  method EditRow(fields: seq<string>, row: Row, entry: Row) returns (edited: Row)
    ensures edited == ApplyEdits(fields, row, entry)
  {
    edited := row;
    var k := 0;
    while k < |fields|
      invariant 0 <= k <= |fields|
      invariant edited == ApplyEdits(fields[..k], row, entry)
    {
      var field := fields[k];
      assert fields[..k + 1] == fields[..k] + [field];
      EditStep(fields[..k], field, row, entry);
      if field in entry && field != KEY_FIELD {
        edited := edited[field := entry[field]];
      }
      k := k + 1;
    }
    assert fields[..k] == fields;
  }

  /** The search-and-update loop of `update_user_entry` over the table
      read from storage. */
  method UpdateUserEntry(rows: seq<Row>, entry: Row) returns (outcome: UpdateOutcome)
    ensures KEY_FIELD !in entry ==> outcome == Rejected(HttpError(400, "Missing field: roll_number"))
    ensures outcome.Rejected? && outcome.error.status == 400 <==> KEY_FIELD !in entry
    ensures outcome.Updated? ==>
      KEY_FIELD in entry &&
      exists i :: FirstMatch(rows, entry[KEY_FIELD], i) &&
        outcome.rows == rows[i := ApplyEdits(USER_ENTRY_FIELDS, rows[i], entry)]
    ensures KEY_FIELD in entry && (exists i :: FirstMatch(rows, entry[KEY_FIELD], i)) ==> outcome.Updated?
    ensures outcome == Rejected(HttpError(404, "Entry with given roll_number not found")) <==>
      KEY_FIELD in entry && NoMatchBefore(rows, entry[KEY_FIELD], |rows|)
    ensures outcome.MissingKeyColumn? ==>
      KEY_FIELD in entry && MissingColumnAt(rows, entry[KEY_FIELD], outcome.index)
    ensures outcome.MissingKeyColumn? <==>
      KEY_FIELD in entry && exists m :: MissingColumnAt(rows, entry[KEY_FIELD], m)
  {
    if KEY_FIELD !in entry {
      return Rejected(HttpError(400, "Missing field: roll_number"));
    }
    var key := entry[KEY_FIELD];
    var i := 0;
    while i < |rows|
      invariant 0 <= i <= |rows|
      invariant NoMatchBefore(rows, key, i)
    {
      if KEY_FIELD !in rows[i] {
        assert MissingColumnAt(rows, key, i);
        forall k | FirstMatch(rows, key, k)
          ensures false
        {
          StopUnique(rows, key, i, k);
        }
        return MissingKeyColumn(i);
      }
      if rows[i][KEY_FIELD] == key {
        var row := EditRow(USER_ENTRY_FIELDS, rows[i], entry);
        assert FirstMatch(rows, key, i);
        forall m | MissingColumnAt(rows, key, m)
          ensures false
        {
          StopUnique(rows, key, m, i);
        }
        return Updated(rows[i := row]);
      }
      i := i + 1;
    }
    NothingStops(rows, key);
    return Rejected(HttpError(404, "Entry with given roll_number not found"));
  }

  /** The lookup cannot both hit a missing key column and find a match. */
  lemma StopUnique(rows: seq<Row>, key: string, m: int, i: int)
    requires MissingColumnAt(rows, key, m)
    ensures !FirstMatch(rows, key, i)
  {
    if 0 <= i < m {
      assert KEY_FIELD in rows[i] && rows[i][KEY_FIELD] != key;
    } else if m < i < |rows| {
      assert !NoMatchBefore(rows, key, i);
    }
  }

  /** When every row has a key other than `key`, the lookup neither finds a
      match nor hits a missing key column. */
  lemma NothingStops(rows: seq<Row>, key: string)
    requires NoMatchBefore(rows, key, |rows|)
    ensures forall i :: !FirstMatch(rows, key, i) && !MissingColumnAt(rows, key, i)
  {
    forall i ensures !FirstMatch(rows, key, i) && !MissingColumnAt(rows, key, i) {
      if 0 <= i < |rows| {
        assert KEY_FIELD in rows[i] && rows[i][KEY_FIELD] != key;
      }
    }
  }

  /** At most one row is the first match, so the update is determined. */
  lemma FirstMatchUnique(rows: seq<Row>, key: string, i: int, j: int)
    requires FirstMatch(rows, key, i) && FirstMatch(rows, key, j)
    ensures i == j
  {
  }

  // ---------------------------------------------------------------------
  // Required fields of the measurement handlers

  /** The loop `for field in fields: if field not in entry: raise 400`: the
      first required field the entry lacks, if any. */
  method FirstMissingField(fields: seq<string>, entry: Row) returns (missing: Option<string>)
    ensures missing.None? <==> forall i :: 0 <= i < |fields| ==> fields[i] in entry
    ensures missing.Some? ==>
      exists i :: 0 <= i < |fields| && fields[i] == missing.value && missing.value !in entry &&
        forall j :: 0 <= j < i ==> fields[j] in entry
  {
    var i := 0;
    while i < |fields|
      invariant 0 <= i <= |fields|
      invariant forall j :: 0 <= j < i ==> fields[j] in entry
    {
      if fields[i] !in entry {
        return Some(fields[i]);
      }
      i := i + 1;
    }
    return None;
  }

  /** A measurement handler: reject the entry naming its first missing
      field, or append it to the table. */
  method AddMeasurement(fields: seq<string>, table: seq<Row>, entry: Row) returns (r: Result<seq<Row>>)
    ensures r.Ok? <==> forall i :: 0 <= i < |fields| ==> fields[i] in entry
    ensures r.Ok? ==> r.value == table + [entry]
    ensures r.Err? ==>
      exists i :: 0 <= i < |fields| && fields[i] !in entry &&
        (forall j :: 0 <= j < i ==> fields[j] in entry) &&
        r.error == HttpError(400, "Missing field: " + fields[i])
  {
    var missing := FirstMissingField(fields, entry);
    if missing.Some? {
      return Err(HttpError(400, "Missing field: " + missing.value));
    }
    return Ok(table + [entry]);
  }

  /** `add_shaft_measurement` */
  method AddShaftMeasurement(table: seq<Row>, entry: Row) returns (r: Result<seq<Row>>)
    ensures r.Ok? <==> forall f :: f in SHAFT_MEASUREMENT_FIELDS ==> f in entry
    ensures r.Ok? ==> r.value == table + [entry]
    ensures r.Err? ==>
      exists i :: 0 <= i < |SHAFT_MEASUREMENT_FIELDS| && SHAFT_MEASUREMENT_FIELDS[i] !in entry &&
        (forall j :: 0 <= j < i ==> SHAFT_MEASUREMENT_FIELDS[j] in entry) &&
        r.error == HttpError(400, "Missing field: " + SHAFT_MEASUREMENT_FIELDS[i])
  {
    r := AddMeasurement(SHAFT_MEASUREMENT_FIELDS, table, entry);
  }

  /** `add_housing_measurement` */
  method AddHousingMeasurement(table: seq<Row>, entry: Row) returns (r: Result<seq<Row>>)
    ensures r.Ok? <==> forall f :: f in HOUSING_MEASUREMENT_FIELDS ==> f in entry
    ensures r.Ok? ==> r.value == table + [entry]
    ensures r.Err? ==>
      exists i :: 0 <= i < |HOUSING_MEASUREMENT_FIELDS| && HOUSING_MEASUREMENT_FIELDS[i] !in entry &&
        (forall j :: 0 <= j < i ==> HOUSING_MEASUREMENT_FIELDS[j] in entry) &&
        r.error == HttpError(400, "Missing field: " + HOUSING_MEASUREMENT_FIELDS[i])
  {
    r := AddMeasurement(HOUSING_MEASUREMENT_FIELDS, table, entry);
  }
}

=== FILE: streaming.dfy ===
/**
  `range_streamer`: open the file, seek to `start`, then read at most
  `CHUNK_SIZE` bytes at a time until `end - start + 1` bytes have gone out or
  a read comes back empty. The generator's successive `yield`s are collected
  into the sequence of chunks it would produce.
 */
module RangeStreaming {

  /** `CHUNK_SIZE = 1024 * 1024` */
  const CHUNK_SIZE: nat := 1024 * 1024

  function Min(a: int, b: int): int {
    if a <= b then a else b
  }

  /** A file opened with `open(path, "rb")`: the bytes on storage and the
      current position, which `seek` may move past the end of the file. */
  class BinaryFile {
    const bytes: seq<bv8>
    var pos: nat

    constructor Open(bytes: seq<bv8>)
      ensures this.bytes == bytes && pos == 0
    {
      this.bytes := bytes;
      pos := 0;
    }

    /** `f.seek(offset)` */
    method Seek(offset: nat)
      modifies this
      ensures pos == offset
    {
      pos := offset;
    }

    /** `f.read(n)` on a regular file: up to `n` bytes from the position,
        fewer only at the end of the file, none at or past it. */
    method Read(n: nat) returns (data: seq<bv8>)
      modifies this
      ensures data == bytes[Min(old(pos), |bytes|)..Min(old(pos) + n, |bytes|)]
      ensures pos == old(pos) + |data|
    {
      var lo := Min(pos, |bytes|);
      data := bytes[lo..Min(pos + n, |bytes|)];
      pos := pos + |data|;
    }
  }

  /** The bytes of positions `start..end` (inclusive) that the file holds. */
  function Window(bytes: seq<bv8>, start: nat, end: int): (w: seq<bv8>)
    ensures |w| <= if end + 1 - start > 0 then end + 1 - start else 0
    ensures end < |bytes| && start <= end + 1 ==> w == bytes[start..end + 1]
  {
    var lo := Min(start, |bytes|);
    var hi := Min(end + 1, |bytes|);
    if hi <= lo then [] else bytes[lo..hi]
  }

  /** The chunks concatenated, in order. */
  function Flatten(chunks: seq<seq<bv8>>): seq<bv8> {
    if chunks == [] then [] else Flatten(chunks[..|chunks| - 1]) + chunks[|chunks| - 1]
  }

  /** `s` cut into consecutive pieces of `n` bytes, the last one possibly
      shorter: the reference against which the streamer is proved. */
  function Chunked(s: seq<bv8>, n: nat): seq<seq<bv8>>
    requires n > 0
    decreases |s|
  {
    if |s| == 0 then []
    else if |s| <= n then [s]
    else [s[..n]] + Chunked(s[n..], n)
  }

  lemma {:induction false} FlattenAppend(a: seq<seq<bv8>>, b: seq<seq<bv8>>)
    ensures Flatten(a + b) == Flatten(a) + Flatten(b)
    decreases |b|
  {
    if b == [] {
      assert a + b == a;
    } else {
      var b' := b[..|b| - 1];
      assert (a + b)[..|a + b| - 1] == a + b';
      FlattenAppend(a, b');
      assert Flatten(b) == Flatten(b') + b[|b| - 1];
    }
  }

  /** Concatenating the pieces gives back the whole. */
  lemma {:induction false} ChunkedFlatten(s: seq<bv8>, n: nat)
    requires n > 0
    ensures Flatten(Chunked(s, n)) == s
    decreases |s|
  {
    if |s| == 0 {
    } else if |s| <= n {
      assert Flatten([s]) == Flatten([]) + s;
    } else {
      ChunkedFlatten(s[n..], n);
      FlattenAppend([s[..n]], Chunked(s[n..], n));
      assert Flatten([s[..n]]) == Flatten([]) + s[..n];
      assert s[..n] + s[n..] == s;
    }
  }

  /** Every piece holds between 1 and `n` bytes, and every piece but the last
      holds exactly `n`. */
  lemma {:induction false} ChunkedSizes(s: seq<bv8>, n: nat)
    requires n > 0
    ensures forall i :: 0 <= i < |Chunked(s, n)| ==> 0 < |Chunked(s, n)[i]| <= n
    ensures forall i :: 0 <= i < |Chunked(s, n)| - 1 ==> |Chunked(s, n)[i]| == n
    decreases |s|
  {
    if |s| > n {
      ChunkedSizes(s[n..], n);
      var c := Chunked(s, n);
      assert c == [s[..n]] + Chunked(s[n..], n);
      forall i | 1 <= i < |c| ensures c[i] == Chunked(s[n..], n)[i - 1] { }
    }
  }

  /** One pass of the loop: a read of `min(CHUNK_SIZE, remaining)` bytes at
      `pos` comes back empty exactly when nothing of the window is left, and
      otherwise returns the first piece of what is left, the rest of the
      window starting after it. */
  lemma ReadStep(bytes: seq<bv8>, pos: nat, end: int, data: seq<bv8>)
    requires pos <= end
    requires data == bytes[Min(pos, |bytes|)..Min(pos + Min(CHUNK_SIZE, end + 1 - pos), |bytes|)]
    ensures data == [] <==> Window(bytes, pos, end) == []
    ensures data != [] ==>
      Chunked(Window(bytes, pos, end), CHUNK_SIZE)
        == [data] + Chunked(Window(bytes, pos + |data|, end), CHUNK_SIZE)
  {
    var w := Window(bytes, pos, end);
    if pos < |bytes| {
      var hi := Min(end + 1, |bytes|);
      assert w == bytes[pos..hi];
      if |w| <= CHUNK_SIZE {
        assert data == w;
        assert Window(bytes, pos + |data|, end) == [];
      } else {
        assert hi > pos + CHUNK_SIZE;
        assert Min(CHUNK_SIZE, end + 1 - pos) == CHUNK_SIZE;
        assert data == bytes[pos..pos + CHUNK_SIZE];
        assert w[..CHUNK_SIZE] == bytes[pos..pos + CHUNK_SIZE];
        assert Window(bytes, pos + |data|, end) == bytes[pos + CHUNK_SIZE..hi] == w[CHUNK_SIZE..];
      }
    }
  }

  /** The loop's bookkeeping across one read: the chunks so far followed by
      the reference chunking of what is left of the window always make up
      the reference chunking of the whole window; an empty read means the
      chunks so far are already all of it. */
  lemma StreamStep(bytes: seq<bv8>, start: nat, end: int, chunks: seq<seq<bv8>>, pos: nat, data: seq<bv8>)
    requires chunks + Chunked(Window(bytes, pos, end), CHUNK_SIZE) == Chunked(Window(bytes, start, end), CHUNK_SIZE)
    requires pos <= end
    requires data == bytes[Min(pos, |bytes|)..Min(pos + Min(CHUNK_SIZE, end + 1 - pos), |bytes|)]
    ensures data == [] ==> chunks == Chunked(Window(bytes, start, end), CHUNK_SIZE)
    ensures data != [] ==>
      (chunks + [data]) + Chunked(Window(bytes, pos + |data|, end), CHUNK_SIZE)
        == Chunked(Window(bytes, start, end), CHUNK_SIZE)
  {
    ReadStep(bytes, pos, end, data);
    var rest := Chunked(Window(bytes, pos + |data|, end), CHUNK_SIZE);
    if data == [] {
      assert Chunked(Window(bytes, pos, end), CHUNK_SIZE) == [];
      assert chunks + [] == chunks;
    } else {
      assert (chunks + [data]) + rest == chunks + ([data] + rest);
    }
  }

  /** Once the position is past the end, the chunks so far are all of it. */
  lemma StreamDone(bytes: seq<bv8>, start: nat, end: int, chunks: seq<seq<bv8>>, pos: nat)
    requires chunks + Chunked(Window(bytes, pos, end), CHUNK_SIZE) == Chunked(Window(bytes, start, end), CHUNK_SIZE)
    requires pos > end
    ensures chunks == Chunked(Window(bytes, start, end), CHUNK_SIZE)
  {
    assert Window(bytes, pos, end) == [];
    assert chunks + [] == chunks;
  }

  /** What the streamer's chunks are worth once they equal the reference. */
  lemma ChunksOfWindow(bytes: seq<bv8>, start: nat, end: int, chunks: seq<seq<bv8>>)
    requires chunks == Chunked(Window(bytes, start, end), CHUNK_SIZE)
    ensures Flatten(chunks) == Window(bytes, start, end)
    ensures forall i :: 0 <= i < |chunks| ==> 0 < |chunks[i]| <= CHUNK_SIZE
    ensures forall i :: 0 <= i < |chunks| - 1 ==> |chunks[i]| == CHUNK_SIZE
  {
    ChunkedFlatten(Window(bytes, start, end), CHUNK_SIZE);
    ChunkedSizes(Window(bytes, start, end), CHUNK_SIZE);
  }

  /** `range_streamer(file, start, end)` over the file's bytes. */
  method RangeStreamer(bytes: seq<bv8>, start: nat, end: int) returns (chunks: seq<seq<bv8>>)
    ensures chunks == Chunked(Window(bytes, start, end), CHUNK_SIZE)
    ensures Flatten(chunks) == Window(bytes, start, end)
    ensures forall i :: 0 <= i < |chunks| ==> 0 < |chunks[i]| <= CHUNK_SIZE
    ensures forall i :: 0 <= i < |chunks| - 1 ==> |chunks[i]| == CHUNK_SIZE
    ensures |Flatten(chunks)| <= if end + 1 - start > 0 then end + 1 - start else 0
    ensures end < |bytes| && start <= end + 1 ==> Flatten(chunks) == bytes[start..end + 1]
  {
    var f := new BinaryFile.Open(bytes);
    f.Seek(start);
    var remaining := end - start + 1;
    chunks := [];
    while remaining > 0
      invariant f.bytes == bytes
      invariant remaining == end + 1 - f.pos
      invariant chunks + Chunked(Window(bytes, f.pos, end), CHUNK_SIZE)
             == Chunked(Window(bytes, start, end), CHUNK_SIZE)
      decreases remaining
    {
      var chunkSize := Min(CHUNK_SIZE, remaining);
      ghost var pos := f.pos;
      var data := f.Read(chunkSize);
      StreamStep(bytes, start, end, chunks, pos, data);
      if data == [] {
        break;
      }
      chunks := chunks + [data];
      remaining := remaining - |data|;
    }
    if remaining <= 0 {
      StreamDone(bytes, start, end, chunks, f.pos);
    }
    ChunksOfWindow(bytes, start, end, chunks);
  }
}

=== FILE: text.dfy ===
/**
  The few Python string built-ins the range parser relies on, on ASCII text:
  `str.strip()`, `str.lower()`, `str.split(sep)`, `int(text)` and the decimal
  rendering `str(n)` used by f-strings.
 */
module Text {
  import opened Outcomes

  /** Python's `str.isspace()` restricted to ASCII: tab, LF, VT, FF, CR, the
      four information separators 0x1C-0x1F, and the space. */
  predicate IsSpace(c: char) {
    ('\U{09}' <= c <= '\U{0D}') || ('\U{1C}' <= c <= '\U{1F}') || c == ' '
  }

  /** The white space `int()` skips around a number written in ASCII: only
      tab, LF, VT, FF, CR and the space, not the information separators. */
  predicate IsIntSpace(c: char) {
    ('\U{09}' <= c <= '\U{0D}') || c == ' '
  }

  /** Which characters a strip drops: those of `str.strip()` or those of
      `int()`. */
  datatype Blanks = StrBlanks | IntBlanks

  predicate IsBlank(b: Blanks, c: char) {
    match b
    case StrBlanks => IsSpace(c)
    case IntBlanks => IsIntSpace(c)
  }

  predicate IsDigit(c: char) {
    '0' <= c <= '9'
  }

  predicate AllDigits(s: string) {
    forall i :: 0 <= i < |s| ==> IsDigit(s[i])
  }

  /** `s.lstrip()`: the suffix of `s` left after dropping leading blanks. */
  function StripLeading(s: string, b: Blanks): (r: string)
    ensures |r| <= |s| && r == s[|s| - |r|..]
    ensures forall i :: 0 <= i < |s| - |r| ==> IsBlank(b, s[i])
    ensures r == [] || !IsBlank(b, r[0])
  {
    if |s| > 0 && IsBlank(b, s[0]) then StripLeading(s[1..], b) else s
  }

  /** `s.rstrip()`: the prefix of `s` left after dropping trailing blanks. */
  function StripTrailing(s: string, b: Blanks): (r: string)
    ensures |r| <= |s| && r == s[..|r|]
    ensures forall i :: |r| <= i < |s| ==> IsBlank(b, s[i])
    ensures r == [] || !IsBlank(b, r[|r| - 1])
  {
    if |s| > 0 && IsBlank(b, s[|s| - 1]) then StripTrailing(s[..|s| - 1], b) else s
  }

  /** Blanks dropped at both ends. */
  function Trim(s: string, b: Blanks): string {
    StripTrailing(StripLeading(s, b), b)
  }

  /** `s.strip()` */
  function Strip(s: string): string {
    Trim(s, StrBlanks)
  }

  function LowerChar(c: char): char {
    if 'A' <= c <= 'Z' then (c as int + 32) as char else c
  }

  /** `s.lower()` */
  function Lower(s: string): string {
    seq(|s|, i requires 0 <= i < |s| => LowerChar(s[i]))
  }

  /** `sep` occurs in `s` at offset `i`. */
  predicate OccursAt(s: string, sep: string, i: int) {
    0 <= i && i + |sep| <= |s| && s[i..i + |sep|] == sep
  }

  /** `sep` occurs somewhere in `s`. */
  ghost predicate Occurs(s: string, sep: string) {
    exists i :: OccursAt(s, sep, i)
  }

  /** `s.split(sep)` for a non-empty separator: the pieces between the
      non-overlapping occurrences of `sep`, found left to right. */
  function Split(s: string, sep: string): (r: seq<string>)
    requires |sep| > 0
    ensures |r| >= 1
    decreases |s|
  {
    if |s| < |sep| then [s]
    else if s[..|sep|] == sep then [""] + Split(s[|sep|..], sep)
    else
      var rest := Split(s[1..], sep);
      [[s[0]] + rest[0]] + rest[1..]
  }

  /** The pieces put back together with `sep` between them: `sep.join(pieces)`. */
  function Join(pieces: seq<string>, sep: string): string
    requires |pieces| >= 1
  {
    if |pieces| == 1 then pieces[0] else pieces[0] + sep + Join(pieces[1..], sep)
  }

  /** `str(n)` for a natural number: its decimal digits, without leading zeros. */
  function FormatNat(n: nat): (r: string)
    ensures |r| > 0 && AllDigits(r)
    ensures r[0] == '0' <==> n == 0
  {
    if n < 10 then [('0' as int + n) as char]
    else FormatNat(n / 10) + [('0' as int + n % 10) as char]
  }

  /** Digits separated by single underscores, as Python's `int()` accepts them. */
  predicate IsDigitGroups(s: string) {
    && |s| > 0
    && IsDigit(s[0]) && IsDigit(s[|s| - 1])
    && (forall i :: 0 <= i < |s| ==> IsDigit(s[i]) || s[i] == '_')
    && (forall i :: 0 <= i < |s| - 1 ==> s[i] == '_' ==> s[i + 1] != '_')
  }

  /** The most digits `int()` reads from a decimal string: CPython's default
      `sys.int_info.default_max_str_digits`. */
  const MAX_STR_DIGITS := 4300

  /** How many digits `s` holds; underscores do not count, leading zeros do. */
  function DigitCount(s: string): int {
    |s| - multiset(s)['_']
  }

  /** The number the digits of `s` spell, underscores ignored. */
  function DigitsValue(s: string): nat
    requires forall i :: 0 <= i < |s| ==> IsDigit(s[i]) || s[i] == '_'
  {
    if s == [] then 0
    else
      var init := DigitsValue(s[..|s| - 1]);
      var c := s[|s| - 1];
      if c == '_' then init else assert IsDigit(c); init * 10 + (c as int - '0' as int)
  }

  /** Python's `int(text)` in base 10 on ASCII text: surrounding tabs, line
      breaks and spaces are ignored, then an optional `+` sign, then digit
      groups of at most `MAX_STR_DIGITS` digits in all. A `-` sign is not
      modelled: the range parser only hands it text already split on `-`. */
  function ParseInt(s: string): Option<nat> {
    var t := Trim(s, IntBlanks);
    var u := if |t| > 0 && t[0] == '+' then t[1..] else t;
    if IsDigitGroups(u) && DigitCount(u) <= MAX_STR_DIGITS then Some(DigitsValue(u)) else None
  }

  // ---------------------------------------------------------------------
  // Properties of the built-ins

  lemma {:induction false} DigitsValueOfFormat(n: nat)
    ensures DigitsValue(FormatNat(n)) == n
  {
    var r := FormatNat(n);
    if n < 10 {
      assert r[..0] == [];
    } else {
      assert r[..|r| - 1] == FormatNat(n / 10);
      DigitsValueOfFormat(n / 10);
    }
  }

  /** A larger number takes at least as many digits. */
  lemma {:induction false} FormatNatLonger(m: nat, n: nat)
    requires m <= n
    ensures |FormatNat(m)| <= |FormatNat(n)|
  {
    if m >= 10 {
      FormatNatLonger(m / 10, n / 10);
    }
  }

  /** Text that neither starts nor ends with a blank is left as it is. */
  lemma TrimUntouched(s: string, b: Blanks)
    requires |s| > 0 && !IsBlank(b, s[0]) && !IsBlank(b, s[|s| - 1])
    ensures Trim(s, b) == s
  {
    assert StripLeading(s, b) == s;
  }

  /** A string of digits alone has as many digits as characters. */
  lemma AllDigitsCount(a: string)
    requires AllDigits(a)
    ensures DigitCount(a) == |a|
  {
    assert '_' !in a by {
      forall i | 0 <= i < |a| ensures a[i] != '_' {
        assert IsDigit(a[i]);
      }
    }
    assert '_' !in multiset(a);
  }

  /** `int(str(n)) == n`: rendering a number and parsing it back is the
      identity, for every number `int()` accepts the length of. */
  lemma ParseFormatRoundTrip(n: nat)
    requires |FormatNat(n)| <= MAX_STR_DIGITS
    ensures ParseInt(FormatNat(n)) == Some(n)
  {
    var r := FormatNat(n);
    AllDigitsCount(r);
    TrimUntouched(r, IntBlanks);
    assert r[0] != '+';
    assert IsDigitGroups(r);
    DigitsValueOfFormat(n);
  }

  /** A character that is neither a digit nor an underscore spoils digit groups. */
  lemma ForeignCharSpoilsGroups(u: string, m: nat)
    requires m < |u| && !IsDigit(u[m]) && u[m] != '_'
    ensures !IsDigitGroups(u)
  {
  }

  /** A character that is not a blank survives trimming, shifted left by the
      leading blanks removed. */
  lemma NonBlankSurvivesTrim(s: string, b: Blanks, k: nat)
    requires k < |s| && !IsBlank(b, s[k])
    ensures var m := k - (|s| - |StripLeading(s, b)|);
      0 <= m < |Trim(s, b)| && Trim(s, b)[m] == s[k]
  {
    var l := StripLeading(s, b);
    var t := StripTrailing(l, b);
    var lo := |s| - |l|;
    assert k >= lo;
    var m := k - lo;
    assert l[m] == s[k];
    assert m < |t|;
  }

  /** `lower()` keeps the length, turns each capital letter into its small
      letter and keeps every other character. */
  lemma LowerChars(s: string)
    ensures |Lower(s)| == |s|
    ensures forall i :: 0 <= i < |s| && 'A' <= s[i] <= 'Z' ==> Lower(s)[i] as int == s[i] as int + 32
    ensures forall i :: 0 <= i < |s| && !('A' <= s[i] <= 'Z') ==> Lower(s)[i] == s[i]
  {
  }

  /** Trimming leaves a contiguous middle of the text. */
  lemma TrimSlice(s: string, b: Blanks)
    ensures var r, lo := Trim(s, b), |s| - |StripLeading(s, b)|;
      lo + |r| <= |s| && r == s[lo..lo + |r|]
  {
    var l := StripLeading(s, b);
    var r := StripTrailing(l, b);
    var lo := |s| - |l|;
    SliceOfSuffix(s, lo, |r|);
  }

  lemma PrefixCons(s: string, n: nat)
    requires n < |s|
    ensures s[..n + 1] == [s[0]] + s[1..][..n]
  {
  }

  lemma SliceOfSuffix(s: string, lo: nat, n: nat)
    requires lo + n <= |s|
    ensures s[lo..][..n] == s[lo..lo + n]
  {
  }

  /** Trimming drops only blanks after the middle it keeps. */
  lemma TrimDropsTrailing(s: string, b: Blanks)
    ensures var r, lo := Trim(s, b), |s| - |StripLeading(s, b)|;
      forall i :: lo + |r| <= i < |s| ==> IsBlank(b, s[i])
  {
    var l := StripLeading(s, b);
    var r := StripTrailing(l, b);
    var lo := |s| - |l|;
    assert l == s[lo..];
    forall i | lo + |r| <= i < |s|
      ensures IsBlank(b, s[i])
    {
      assert s[i] == l[i - lo];
      assert IsBlank(b, l[i - lo]);
    }
  }

  /** `strip()` leaves a contiguous middle of the text, drops only white
      space around it, and neither starts nor ends with white space. */
  lemma StripMiddle(s: string)
    ensures var r, lo := Strip(s), |s| - |StripLeading(s, StrBlanks)|;
      && lo + |r| <= |s| && r == s[lo..lo + |r|]
      && (forall i :: 0 <= i < lo ==> IsSpace(s[i]))
      && (forall i :: lo + |r| <= i < |s| ==> IsSpace(s[i]))
      && (r == [] || (!IsSpace(r[0]) && !IsSpace(r[|r| - 1])))
  {
    var l := StripLeading(s, StrBlanks);
    var r := StripTrailing(l, StrBlanks);
    var lo := |s| - |l|;
    TrimSlice(s, StrBlanks);
    TrimDropsTrailing(s, StrBlanks);
    forall i | 0 <= i < lo
      ensures IsSpace(s[i])
    {
      assert IsBlank(StrBlanks, s[i]);
    }
    forall i | lo + |r| <= i < |s|
      ensures IsSpace(s[i])
    {
      assert IsBlank(StrBlanks, s[i]);
    }
    if r != [] {
      assert r[0] == l[0];
      assert !IsBlank(StrBlanks, r[0]) && !IsBlank(StrBlanks, r[|r| - 1]);
    }
  }

  /** `int()` reads any non-empty digit string of at most `MAX_STR_DIGITS`
      digits, leading zeros included, as the number its digits spell. */
  lemma ParseDigits(a: string)
    requires 0 < |a| <= MAX_STR_DIGITS && AllDigits(a)
    ensures ParseInt(a) == Some(DigitsValue(a))
  {
    AllDigitsCount(a);
    TrimUntouched(a, IntBlanks);
    assert a[0] != '+';
    assert IsDigitGroups(a);
  }

  /** `int()` refuses a digit string longer than `MAX_STR_DIGITS`, leading
      zeros counted. */
  lemma ParseTooManyDigits(a: string)
    requires |a| > MAX_STR_DIGITS && AllDigits(a)
    ensures ParseInt(a) == None
  {
    AllDigitsCount(a);
    TrimUntouched(a, IntBlanks);
    assert a[0] != '+';
  }

  /** `int()` rejects any text holding a character that can be neither white
      space it skips, a sign, a digit nor an underscore; the information
      separators 0x1C-0x1F, white space to `strip()`, are among them. */
  lemma ParseRejectsForeignChar(s: string, k: nat)
    requires k < |s|
    requires !IsIntSpace(s[k]) && !IsDigit(s[k]) && s[k] != '_' && s[k] != '+'
    ensures ParseInt(s) == None
  {
    var t := Trim(s, IntBlanks);
    var m := k - (|s| - |StripLeading(s, IntBlanks)|);
    NonBlankSurvivesTrim(s, IntBlanks, k);
    if |t| > 0 && t[0] == '+' {
      assert m > 0;
      assert t[1..][m - 1] == s[k];
      ForeignCharSpoilsGroups(t[1..], m - 1);
    } else {
      ForeignCharSpoilsGroups(t, m);
    }
  }

  lemma {:induction false} SplitAbsent(s: string, sep: string)
    requires |sep| > 0 && !Occurs(s, sep)
    ensures Split(s, sep) == [s]
    decreases |s|
  {
    if |s| >= |sep| {
      assert !OccursAt(s, sep, 0);
      assert s[..|sep|] != sep;
      forall i | 0 <= i && i + |sep| <= |s| - 1 ensures !OccursAt(s[1..], sep, i) {
        assert s[1..][i..i + |sep|] == s[i + 1..i + 1 + |sep|];
        assert !OccursAt(s, sep, i + 1);
      }
      assert !Occurs(s[1..], sep);
      SplitAbsent(s[1..], sep);
      assert [s[0]] + s[1..] == s;
    }
  }

  lemma {:induction false} SplitPresent(s: string, sep: string)
    requires |sep| > 0 && Occurs(s, sep)
    ensures |Split(s, sep)| >= 2
    decreases |s|
  {
    var i :| OccursAt(s, sep, i);
    if s[..|sep|] != sep {
      assert i > 0;
      assert s[1..][i - 1..i - 1 + |sep|] == s[i..i + |sep|];
      assert OccursAt(s[1..], sep, i - 1);
      SplitPresent(s[1..], sep);
    }
  }

  /** Putting a character in front of the first piece puts it in front of
      the joined text. */
  lemma JoinPrepend(c: char, pieces: seq<string>, sep: string)
    requires |pieces| >= 1
    ensures Join([[c] + pieces[0]] + pieces[1..], sep) == [c] + Join(pieces, sep)
  {
    var q := [[c] + pieces[0]] + pieces[1..];
    if |pieces| > 1 {
      assert q[1..] == pieces[1..];
      assert Join(q, sep) == ([c] + pieces[0]) + sep + Join(pieces[1..], sep);
      assert Join(pieces, sep) == pieces[0] + sep + Join(pieces[1..], sep);
    }
  }

  /** Joining the pieces of a split with the separator gives the text back. */
  lemma {:induction false} SplitJoin(s: string, sep: string)
    requires |sep| > 0
    ensures Join(Split(s, sep), sep) == s
    decreases |s|
  {
    if |s| < |sep| {
    } else if s[..|sep|] == sep {
      var rest := Split(s[|sep|..], sep);
      SplitJoin(s[|sep|..], sep);
      assert ([""] + rest)[1..] == rest;
      assert Join([""] + rest, sep) == "" + sep + Join(rest, sep);
      assert s == s[..|sep|] + s[|sep|..];
    } else {
      var rest := Split(s[1..], sep);
      SplitJoin(s[1..], sep);
      JoinPrepend(s[0], rest, sep);
      assert s == [s[0]] + s[1..];
    }
  }

  /** The first piece of a split is a prefix of the text. */
  lemma {:induction false} SplitFirstIsPrefix(s: string, sep: string)
    requires |sep| > 0
    ensures var p := Split(s, sep)[0]; |p| <= |s| && p == s[..|p|]
    decreases |s|
  {
    if |s| >= |sep| && s[..|sep|] != sep {
      var rest := Split(s[1..], sep);
      assert Split(s, sep) == [[s[0]] + rest[0]] + rest[1..];
      SplitFirstIsPrefix(s[1..], sep);
      PrefixCons(s, |rest[0]|);
    }
  }

  /** No piece of a split holds the separator. For a separator that cannot
      overlap itself, such as `bytes=` and `-`, each piece therefore runs up
      to the next occurrence; `"aaa".split("aa")` shows that an overlapping
      one need not. */
  lemma {:induction false} SplitPiecesFree(s: string, sep: string)
    requires |sep| > 0
    ensures forall k :: 0 <= k < |Split(s, sep)| ==> !Occurs(Split(s, sep)[k], sep)
    decreases |s|
  {
    var pieces := Split(s, sep);
    if |s| < |sep| {
      assert pieces == [s];
      forall i ensures !OccursAt(s, sep, i) { }
    } else if s[..|sep|] == sep {
      SplitPiecesFree(s[|sep|..], sep);
      var rest := Split(s[|sep|..], sep);
      assert pieces == [""] + rest;
      forall k | 0 <= k < |pieces| ensures !Occurs(pieces[k], sep) {
        if k == 0 {
          forall i ensures !OccursAt(pieces[k], sep, i) { }
        } else {
          assert pieces[k] == rest[k - 1];
        }
      }
    } else {
      SplitPiecesFree(s[1..], sep);
      SplitFirstIsPrefix(s[1..], sep);
      var rest := Split(s[1..], sep);
      var p0 := [s[0]] + rest[0];
      assert pieces == [p0] + rest[1..];
      assert p0 == s[..|p0|];
      forall i ensures !OccursAt(p0, sep, i) {
        if i == 0 && |sep| <= |p0| {
          assert p0[0..|sep|] == s[..|sep|];
        } else if 1 <= i && i + |sep| <= |p0| {
          assert p0[i..i + |sep|] == rest[0][i - 1..i - 1 + |sep|];
          assert !OccursAt(rest[0], sep, i - 1);
        }
      }
      forall k | 0 <= k < |pieces| ensures !Occurs(pieces[k], sep) {
        if k > 0 {
          assert pieces[k] == rest[k];
        }
      }
    }
  }

  /** A separator whose first character is absent from `s` does not occur in it. */
  lemma FirstCharAbsent(s: string, sep: string)
    requires |sep| > 0 && forall i :: 0 <= i < |s| ==> s[i] != sep[0]
    ensures !Occurs(s, sep)
  {
    forall i ensures !OccursAt(s, sep, i) {
      if 0 <= i && i + |sep| <= |s| {
        assert s[i..i + |sep|][0] == s[i];
      }
    }
  }

  /** `s.split(sep)` has a second piece exactly when `sep` occurs in `s`. */
  lemma SplitHasSecondPiece(s: string, sep: string)
    requires |sep| > 0
    ensures |Split(s, sep)| >= 2 <==> Occurs(s, sep)
  {
    if Occurs(s, sep) { SplitPresent(s, sep); } else { SplitAbsent(s, sep); }
  }

  /** Splitting on one character gives one piece more than the character
      occurs. */
  lemma {:induction false} SplitCharCount(s: string, c: char)
    ensures |Split(s, [c])| == multiset(s)[c] + 1
    decreases |s|
  {
    if |s| > 0 {
      assert s == [s[0]] + s[1..];
      assert multiset(s) == multiset([s[0]]) + multiset(s[1..]);
      SplitCharCount(s[1..], c);
    }
  }

  /** Splitting `a + c + b` on the character `c`, where `a` holds no `c`. */
  lemma {:induction false} SplitAroundChar(a: string, c: char, b: string)
    requires c !in a
    ensures Split(a + [c] + b, [c]) == [a] + Split(b, [c])
    decreases |a|
  {
    var s := a + [c] + b;
    if a == [] {
      assert s[..1] == [c];
      assert s[1..] == b;
    } else {
      assert s[..1] != [c] by { assert s[0] == a[0]; }
      assert s[1..] == a[1..] + [c] + b;
      SplitAroundChar(a[1..], c, b);
      assert [s[0]] + a[1..] == a;
    }
  }

  lemma LowerNoUpper(s: string)
    requires forall i :: 0 <= i < |s| ==> !('A' <= s[i] <= 'Z')
    ensures Lower(s) == s
  {
  }

  lemma {:induction false} StripLeadingLower(s: string)
    ensures StripLeading(Lower(s), StrBlanks) == Lower(StripLeading(s, StrBlanks))
    decreases |s|
  {
    if |s| > 0 {
      var l := Lower(s);
      assert l[0] == LowerChar(s[0]);
      assert IsSpace(l[0]) <==> IsSpace(s[0]);
      if IsSpace(s[0]) {
        assert l[1..] == Lower(s[1..]);
        StripLeadingLower(s[1..]);
        assert StripLeading(l, StrBlanks) == StripLeading(l[1..], StrBlanks);
      } else {
        assert StripLeading(l, StrBlanks) == l;
      }
    }
  }

  lemma {:induction false} StripTrailingLower(s: string)
    ensures StripTrailing(Lower(s), StrBlanks) == Lower(StripTrailing(s, StrBlanks))
    decreases |s|
  {
    if |s| > 0 {
      assert Lower(s)[..|s| - 1] == Lower(s[..|s| - 1]);
      StripTrailingLower(s[..|s| - 1]);
    }
  }

  lemma LowerIdempotent(s: string)
    ensures Lower(Lower(s)) == Lower(s)
  {
  }

  /** Stripping and lower-casing commute, and lower-casing twice changes nothing. */
  lemma StripLowerCommute(s: string)
    ensures Lower(Strip(Lower(s))) == Lower(Strip(s))
  {
    StripLeadingLower(s);
    StripTrailingLower(StripLeading(s, StrBlanks));
    assert Strip(Lower(s)) == Lower(Strip(s));
    LowerIdempotent(Strip(s));
  }
}

=== FILE: video_endpoint.dfy ===
/**
  The `GET /video/{category}/{filename}` handler, `stream_video`: resolve the
  file, decide on the range, then answer with an error or with the status,
  the headers and the chunked body. FastAPI, `StreamingResponse` and the
  asynchronous generator are replaced by the values they would carry.
 */
module VideoEndpoint {
  import opened Outcomes
  import opened Text
  import opened MediaPaths
  import opened RangeHeader
  import opened RangeStreaming

  datatype Header = Header(name: string, value: string)

  /** The value of the first header called `name`. */
  function HeaderValue(headers: seq<Header>, name: string): Option<string> {
    if headers == [] then None
    else if headers[0].name == name then Some(headers[0].value)
    else HeaderValue(headers[1..], name)
  }

  /** The names the headers carry. */
  function Names(headers: seq<Header>): set<string> {
    set i | 0 <= i < |headers| :: headers[i].name
  }

  /** No two headers share a name, as the keys of a dictionary. */
  predicate DistinctNames(headers: seq<Header>) {
    forall i, j :: 0 <= i < j < |headers| ==> headers[i].name != headers[j].name
  }

  /** What the handler answers before any byte is read: an error, or the
      status and headers of a stream of the bytes `start..end`. */
  datatype Reply =
    | Refused(error: HttpError)
    | Streaming(status: nat, headers: seq<Header>, start: nat, end: int)

  /** The headers of a 206 for the bytes `start..end` of a file of `size`
      bytes. */
  function PartialHeaders(start: nat, end: nat, size: nat): (h: seq<Header>)
    requires start <= end
    ensures HeaderValue(h, "Content-Range") ==
      Some("bytes " + FormatNat(start) + "-" + FormatNat(end) + "/" + FormatNat(size))
    ensures HeaderValue(h, "Accept-Ranges") == Some("bytes")
    ensures HeaderValue(h, "Content-Length") == Some(FormatNat(end + 1 - start))
    ensures HeaderValue(h, "Content-Type") == Some("video/mp4")
  {
    var h := [
      Header("Content-Range", "bytes " + FormatNat(start) + "-" + FormatNat(end) + "/" + FormatNat(size)),
      Header("Accept-Ranges", "bytes"),
      Header("Content-Length", FormatNat(end - start + 1)),
      Header("Content-Type", "video/mp4")];
    assert HeaderValue(h[2..], "Content-Length") == Some(FormatNat(end - start + 1));
    assert HeaderValue(h[2..], "Content-Type") == Some("video/mp4");
    h
  }

  /** The headers of a 200 over a whole file of `size` bytes: one of each of
      no `Content-Range`. */
  function FullHeaders(size: nat): (h: seq<Header>)
    ensures HeaderValue(h, "Content-Length") == Some(FormatNat(size))
    ensures HeaderValue(h, "Content-Type") == Some("video/mp4")
    ensures HeaderValue(h, "Accept-Ranges") == Some("bytes")
    ensures HeaderValue(h, "Content-Range") == None
  {
    var h := [
      Header("Content-Length", FormatNat(size)),
      Header("Content-Type", "video/mp4"),
      Header("Accept-Ranges", "bytes")];
    assert HeaderValue(h[2..], "Accept-Ranges") == Some("bytes");
    assert HeaderValue(h[2..], "Content-Range") == None;
    h
  }

  /** The answer `stream_video` gives to a range decision for a file of `size`
      bytes. */
  function RangeReply(decision: RangeDecision, size: nat): (r: Reply)
    requires decision.PartialContent? ==> decision.start <= decision.end < size
    ensures decision.MalformedRange? ==> r == Refused(HttpError(400, "Invalid Range header"))
    ensures decision.UnsatisfiableRange? ==> r == Refused(HttpError(416, "Requested Range Not Satisfiable"))
    ensures r.Streaming? <==> decision.FullContent? || decision.PartialContent?
    ensures r.Streaming? ==>
      && r.start <= r.end + 1 && r.end < size
      && HeaderValue(r.headers, "Content-Length") == Some(FormatNat(r.end + 1 - r.start))
      && HeaderValue(r.headers, "Accept-Ranges") == Some("bytes")
      && HeaderValue(r.headers, "Content-Type") == Some("video/mp4")
    ensures decision.PartialContent? ==>
      && r.status == 206
      && r.start == decision.start && r.end == decision.end
      && HeaderValue(r.headers, "Content-Range") ==
           Some("bytes " + FormatNat(r.start) + "-" + FormatNat(r.end) + "/" + FormatNat(size))
    ensures decision.FullContent? ==>
      && r.status == 200
      && r.start == 0 && r.end == size - 1
      && HeaderValue(r.headers, "Content-Range") == None
  {
    match decision
    case MalformedRange => Refused(HttpError(400, "Invalid Range header"))
    case UnsatisfiableRange => Refused(HttpError(416, "Requested Range Not Satisfiable"))
    case PartialContent(start, end) => Streaming(206, PartialHeaders(start, end, size), start, end)
    case FullContent => Streaming(200, FullHeaders(size), 0, size - 1)
  }

  /** A served reply carries each header name once: the four of a 206, or
      the three of a 200, which lacks `Content-Range`. */
  lemma ReplyHeaderNames(decision: RangeDecision, size: nat)
    requires decision.PartialContent? ==> decision.start <= decision.end < size
    ensures var r := RangeReply(decision, size);
      r.Streaming? ==> DistinctNames(r.headers)
    ensures var r := RangeReply(decision, size);
      decision.PartialContent? ==>
        Names(r.headers) == {"Content-Range", "Accept-Ranges", "Content-Length", "Content-Type"}
    ensures var r := RangeReply(decision, size);
      decision.FullContent? ==> Names(r.headers) == {"Content-Length", "Content-Type", "Accept-Ranges"}
  {
    var r := RangeReply(decision, size);
    if decision.PartialContent? {
      var h := r.headers;
      assert h[0].name == "Content-Range" && h[1].name == "Accept-Ranges";
      assert h[2].name == "Content-Length" && h[3].name == "Content-Type";
    } else if decision.FullContent? {
      var h := r.headers;
      assert h[0].name == "Content-Length" && h[1].name == "Content-Type" && h[2].name == "Accept-Ranges";
    }
  }

  /** The complete answer: an error, or status, headers and body chunks. */
  datatype Response =
    | Failed(error: HttpError)
    | Served(status: nat, headers: seq<Header>, body: seq<seq<bv8>>)

  /** The last step of `stream_video`: answer a range decision on a file's bytes with an
      error or with the streamed chunks. */
  method ServeDecision(bytes: seq<bv8>, decision: RangeDecision) returns (response: Response)
    requires decision.PartialContent? ==> decision.start <= decision.end < |bytes|
    ensures var reply := RangeReply(decision, |bytes|);
      && (reply.Refused? ==> response == Failed(reply.error))
      && (reply.Streaming? ==>
            && response.Served?
            && response.status == reply.status
            && response.headers == reply.headers
            && Flatten(response.body) == bytes[reply.start..reply.end + 1])
    ensures response.Served? ==>
      && HeaderValue(response.headers, "Content-Length") == Some(FormatNat(|Flatten(response.body)|))
      && (forall i :: 0 <= i < |response.body| ==> 0 < |response.body[i]| <= CHUNK_SIZE)
  {
    var reply := RangeReply(decision, |bytes|);
    if reply.Refused? {
      return Failed(reply.error);
    }
    var body := RangeStreamer(bytes, reply.start, reply.end);
    assert |Flatten(body)| == reply.end + 1 - reply.start;
    response := Served(reply.status, reply.headers, body);
  }

  /** `stream_video`, with the file system given as the bytes of every
      existing regular file, keyed by path. */
  method StreamVideo(videoDirs: map<string, string>, fs: map<string, seq<bv8>>,
                     category: string, filename: string, rangeHeader: Option<string>)
    returns (response: Response)
    ensures category !in videoDirs ==> response == Failed(HttpError(404, "Category not found"))
    ensures ResolveVideoPath(videoDirs, fs.Keys, category, filename).Err? ==>
      response == Failed(ResolveVideoPath(videoDirs, fs.Keys, category, filename).error)
    ensures ResolveVideoPath(videoDirs, fs.Keys, category, filename).Ok? ==>
      var bytes := fs[ResolveVideoPath(videoDirs, fs.Keys, category, filename).value];
      var reply := RangeReply(DecideRange(rangeHeader, |bytes|), |bytes|);
      && (reply.Refused? ==> response == Failed(reply.error))
      && (reply.Streaming? ==>
            && response.Served?
            && response.status == reply.status
            && response.headers == reply.headers
            && Flatten(response.body) == bytes[reply.start..reply.end + 1])
    ensures response.Served? ==>
      && HeaderValue(response.headers, "Content-Length") == Some(FormatNat(|Flatten(response.body)|))
      && (forall i :: 0 <= i < |response.body| ==> 0 < |response.body[i]| <= CHUNK_SIZE)
  {
    var resolved := ResolveVideoPath(videoDirs, fs.Keys, category, filename);
    if resolved.Err? {
      return Failed(resolved.error);
    }
    var bytes := fs[resolved.value];
    var decision := DecideRange(rangeHeader, |bytes|);
    assert decision.PartialContent? ==> decision.start <= decision.end < |bytes|;
    response := ServeDecision(bytes, decision);
  }

  // ---------------------------------------------------------------------
  // Whole-request consequences

  /** With no `Range` header the body is the whole file, under status 200. */
  lemma FullBodyIsFile(size: nat)
    ensures var r := RangeReply(DecideRange(None, size), size);
      r.Streaming? && r.status == 200 && r.start == 0 && r.end + 1 == size
  {
  }

  // ---------------------------------------------------------------------
  // Worked cases

  /** `bytes=100-199` on a 1000-byte file is answered with 206, 100 bytes
      and `Content-Range: bytes 100-199/1000`. */
  lemma RangeInsideFileReply()
    ensures var r := RangeReply(PartialContent(100, 199), 1000);
      && r.Streaming? && r.status == 206
      && HeaderValue(r.headers, "Content-Length") == Some("100")
      && HeaderValue(r.headers, "Content-Range") == Some("bytes 100-199/1000")
  {
    assert FormatNat(10) == "10";
    assert FormatNat(100) == "100";
    assert FormatNat(19) == "19";
    assert FormatNat(199) == "199";
    assert FormatNat(1000) == "1000";
    assert "bytes " + "100" + "-" + "199" + "/" + "1000" == "bytes 100-199/1000";
  }
}
